=== FILE: README.md ===
# Approval-label workflow, modelled in Dafny

The workflow runs periodically over the open pull requests of one repository.
It lists the pull requests that carry the label `approval: done`. For each one
it reads the issue timeline and folds the events into a small state:

- the active labels, each with the time it was last applied;
- the times of human activity (comments and commits);
- the times of comments by the automation account;
- the SHA of the last commit.

A ladder of checks then decides what to report and which writes to send. Once
the approval has stood for a day with no later activity and passing CI, the
`approval: done` label is replaced by `approval: ready to merge` and a
comment is posted. All writes are sent only in commit mode.

The Dafny modules follow that structure:

- `Timeline`: the events, the folded `State`, `Step` and `Fold`.
- `Ladder`: the outcomes and `Decide`. `Decide` gets the current time, the
  CI lookup and the commit flag as parameters.
- `LadderFacts` and `Rerun`: what one run and a following run promise.
- `Writes`: the write requests, and how a planned sequence of them is sent
  when some are rejected.
- `PullRequests`: the label filter over the joined pages.
- `Text`, `Labels`, `Wrappers`: the substring test, the label names and
  `Option`.

Timestamps are whole seconds. The "24 hours" test is `now - approved < 86400`.
This equals the source's float test `hours < 24`, because the timeline times
are whole seconds and `now` is taken as the floor of the clock.

Two behaviours of the code as written are proved as lemmas:

- The urgent notice has no de-duplication. It is sent again on every run while
  its conditions hold (`Rerun.UrgentNoticeRepeats`).
- The de-duplication test for the status comments accepts any comment by the
  automation account after the approval time. An urgent notice posted after
  approval therefore silences the later "updated" and CI-failure comments
  (`Rerun.UrgentNoticeSilencesStatusComments`).

## Model

| member | source | states |
|---|---|---|
| Text.Contains | github-approve-label-workflow/github-approve-label-workflow.py:117 | the machine-account test is true exactly when the text occurs at some position of the login |
| Timeline.Step | github-approve-label-workflow/github-approve-label-workflow.py:114-140 | a human comment or a commit appends its time to the human list; an automation comment appends to the machine list; only a commit changes the SHA; labels other than the event's are untouched; reviews and other events change nothing |
| Timeline.Fold | github-approve-label-workflow/github-approve-label-workflow.py:109-142 | one pass over the timeline in order; every active label was applied by some labeled event of that name, and each event adds at most one time to the human and machine lists together (LabelFold, ActivityFold and ShaFold state every part of the result the ladder reads: the labels, the SHA, and the lists up to order and repetition) |
| Timeline.Latest | github-approve-label-workflow/github-approve-label-workflow.py:150 | the latest time of a non-empty list is one of its elements and no element is later |
| Timeline.LabelFold | github-approve-label-workflow/github-approve-label-workflow.py:128-137 | a label is active exactly when the last event touching it applied it, and its time is that event's creation time |
| Timeline.RemovedLabelInactive | github-approve-label-workflow/github-approve-label-workflow.py:132-137 | a label removed after its last application is inactive, however often it was applied earlier |
| Timeline.ActivityFold | github-approve-label-workflow/github-approve-label-workflow.py:116-125 | the human list holds exactly the times of human comments and commits; the machine list holds exactly the times of automation comments |
| Timeline.ShaFold | github-approve-label-workflow/github-approve-label-workflow.py:112-124 | the kept SHA is the last commit's, or empty when the timeline has no commit |
| Timeline.Relevant | github-approve-label-workflow/github-approve-label-workflow.py:138-140 | the timeline with reviews and unknown events dropped holds exactly the other events, and is the timeline itself when nothing is dropped |
| Timeline.InertEventsIgnored | github-approve-label-workflow/github-approve-label-workflow.py:138-140 | dropping reviews and unknown events from the timeline leaves the folded state unchanged |
| Writes.Execute | github-approve-label-workflow/github-approve-label-workflow.py:64-95 | the writes sent are a non-empty prefix of the plan; every label write before the last one sent was accepted; the sequence ends early only on a rejected label write |
| Writes.MoveStopsAtFirstFailure | github-approve-label-workflow/github-approve-label-workflow.py:64-84 | moving to ready sends the label removal, then the label addition, then the comment, stopping after the first rejected label write |
| Writes.CommentsAlwaysSent | github-approve-label-workflow/github-approve-label-workflow.py:87-95 | a failed comment never stops the writes after it |
| Ladder.Decide | github-approve-label-workflow/github-approve-label-workflow.py:144-203 | dry runs send nothing; the outcome is "already ready" exactly when the ready label is active; it is "not approved" exactly when neither label is active; writes happen only for an approved, not yet promoted pull request |
| Ladder.CheckPr | github-approve-label-workflow/github-approve-label-workflow.py:98-203 | the whole check of one pull request from its timeline: dry runs send nothing, the outcome is "already ready" exactly when the last event touching the ready label applied it, and writes happen only when the last event touching the done label applied it and the ready label is not active (the LadderFacts lemmas state the ladder in full) |
| LadderFacts.Precedence | github-approve-label-workflow/github-approve-label-workflow.py:144-147 | an active ready label gives "already ready" with no write whatever else holds; otherwise a missing done label gives "not approved" with no write |
| LadderFacts.DryRunSameOutcome | github-approve-label-workflow/github-approve-label-workflow.py:171-203 | a dry run reports the same outcome as a committing run and sends no write |
| LadderFacts.UrgentNoticeExactly | github-approve-label-workflow/github-approve-label-workflow.py:148-153 | the urgent notice is sent exactly in commit mode, for an approved pull request, when the urgent label is active and no human activity is later than it; it is then the first write |
| LadderFacts.UrgentNeverDecides | github-approve-label-workflow/github-approve-label-workflow.py:148-155 | when there is some human activity, removing the urgent label changes only the leading notice, never the outcome or the other writes |
| LadderFacts.TooSoonExactly | github-approve-label-workflow/github-approve-label-workflow.py:155-166 | less than a day after approval the outcome is "not yet 24 hours" with the exact elapsed time, and the only possible write is the urgent notice |
| LadderFacts.NoActivityExactly | github-approve-label-workflow/github-approve-label-workflow.py:148-168 | with the pull request approved and not yet promoted, an empty human-activity list stops evaluation exactly when the urgent label is active (the run then stops at the urgent check) or a day has passed, and nothing is written |
| LadderFacts.UpdatesCheckedBeforeCi | github-approve-label-workflow/github-approve-label-workflow.py:168-178 | after a day, human activity since approval decides before CI is asked; the "updated" comment is sent in commit mode unless an automation comment postdates the approval |
| LadderFacts.CiDecides | github-approve-label-workflow/github-approve-label-workflow.py:180-203 | with no activity since approval, a failed lookup gives "unknown CI status", a state other than success gives a CI failure with a de-duplicated comment, and success gives a candidate; the unknown status and the already-noted CI failure write nothing but the urgent notice |
| LadderFacts.NotedSinceMeans | github-approve-label-workflow/github-approve-label-workflow.py:169 | the de-duplication test holds exactly when some automation comment is later than the approval time |
| LadderFacts.NotedSilencesStatusComments | github-approve-label-workflow/github-approve-label-workflow.py:168-197 | once an automation comment postdates the approval, neither the "updated" nor the CI-failure comment is sent |
| LadderFacts.CandidateExactly | github-approve-label-workflow/github-approve-label-workflow.py:198-203 | the outcome is a candidate exactly when every check passes; commit mode then sends the three-write move after any urgent notice, and a dry run sends nothing |
| LadderFacts.LabelsChangeOnlyOnPromotion | github-approve-label-workflow/github-approve-label-workflow.py:198-203 | a label write is planned exactly when a committing run finds a candidate |
| Rerun.MachineCommentAppended | github-approve-label-workflow/github-approve-label-workflow.py:116-118 | a new automation comment only extends the machine list |
| Rerun.UpdateNotedOnState | github-approve-label-workflow/github-approve-label-workflow.py:168-178 | on the folded state, once an automation comment later than the first run's time is added, the next committing run abstains as already noted and writes only the urgent notice |
| Rerun.CiNotedOnState | github-approve-label-workflow/github-approve-label-workflow.py:187-197 | on the folded state, once an automation comment later than the first run's time is added, the CI-failure and updated comments are never sent again, and the same CI answer gives "already noted" |
| Rerun.NoDuplicateUpdateComment | github-approve-label-workflow/github-approve-label-workflow.py:168-178 | after the "updated" comment lands on the timeline, a later run abstains as already noted and sends no write except the urgent notice |
| Rerun.NoDuplicateCiComment | github-approve-label-workflow/github-approve-label-workflow.py:187-197 | after the CI-failure comment lands on the timeline, no later run sends it again; with the same CI answer the run abstains as already noted |
| Rerun.UrgentNoticeRepeats | github-approve-label-workflow/github-approve-label-workflow.py:148-153 | the urgent notice is sent again on the next run although the previous one is on the timeline |
| Rerun.UrgentNoticeSilencesStatusComments | github-approve-label-workflow/github-approve-label-workflow.py:148-197 | an urgent notice posted after the approval suppresses every later "updated" and CI-failure comment |
| PullRequests.Hits | github-approve-label-workflow/github-approve-label-workflow.py:56-58 | the labels of one pull request yield its number exactly as many times as a label is named exactly "approval: done", and nothing else |
| PullRequests.Filter | github-approve-label-workflow/github-approve-label-workflow.py:53-58 | every listed number belongs to an input pull request carrying the done label (FilterMembership gives the converse, FilterAppend the order) |
| PullRequests.FilterMembership | github-approve-label-workflow/github-approve-label-workflow.py:53-58 | a number is listed exactly when some pull request with that number carries the done label |
| PullRequests.FilterAppend | github-approve-label-workflow/github-approve-label-workflow.py:53-58 | filtering a concatenation equals concatenating the filtered parts, so input order is kept |
| PullRequests.ConcatMembership | github-approve-label-workflow/github-approve-label-workflow.py:46-48 | a pull request is in the joined pages exactly when it is on one of the pages |
| PullRequests.GetPullRequests | github-approve-label-workflow/github-approve-label-workflow.py:38-61 | a number is listed exactly when a pull request with it, on some page, carries a label named exactly "approval: done" |
| PullRequests.PagesDistribute | github-approve-label-workflow/github-approve-label-workflow.py:46-58 | joining pages and then filtering equals filtering each page and joining the results |

## Left out

- HTTP requests, headers, the token and the `rel="next"` pagination loop. Pages are given as a sequence of sequences. The CI status request is the parameter `ci`, applied to the kept SHA. The answers to write requests are the parameter `status` of `Writes.Execute`.
- Reading `DEBUG`, `GITHUB_TOKEN` and `COMMIT` from the environment. Commit mode is a parameter. All DEBUG and console printing is left out, including `main`'s per-pull-request line; the model is the source with DEBUG off, since one debug print can end the run (see the `max` line below).
- Parsing timestamp strings. Times are integer seconds, and the clock is the parameter `now`.
- Float hours. `Ladder.Decide` reports the elapsed time in seconds in `TooSoon` and `Candidate`. The formatted hours value and the exact outcome strings are left out; each `Outcome` constructor stands for one of the source's messages.
- The broad exception handlers for malformed payloads. Events and pull requests are well-typed datatypes here. In the source:
  - when a listed pull request or a timeline event is malformed, the handler evaluates `repos["message"]` on a list; that raises an error outside any `try`, which ends the whole run;
  - when the pull-request listing returns an error object instead of a list, the loop walks its keys, `"labels" in pr` is a substring test on each key, which fails for the error object's usual keys, nothing raises, and the function returns an empty list;
  - only when the timeline request returns an error object does the check of that pull request return the object's message.
- `max` of an empty human-activity list raises an uncaught error in the source, which ends the whole run. The model reports it as the outcome `NoActivity` with no write for that pull request. It arises where the source evaluates `max`: at the urgent check, and after the day has passed; with DEBUG set the source also evaluates it at line 161, before the day test, so an approved pull request with no urgent label and no human activity ends the run there even within the first day. The model follows the source with DEBUG off and reports `TooSoon` in that case.
- The state of a review is carried in the event but has no effect: the source compares it with "approved" and then only prints the review's submission time in debug mode.
- Writes.Execute: it applies one rule to any plan: a rejected label write ends the sequence, a failed comment does not. This matches `addcomment` and `movelabeldonetoready` for every plan `Ladder.Decide` can produce. A label write is accepted unless its status is in 400 to 599, as the HTTP client's `ok` defines it. A comment counts as created only on status 201, which the source merely logs.

=== FILE: labels.dfy ===
/** The label names and account name the workflow keys on. */
module Labels {

  /** Set by reviewers once a pull request is approved. */
  const DoneLabel := "approval: done"

  /** Set by the workflow once the approval has stood for a day. */
  const ReadyLabel := "approval: ready to merge"

  /** Asks committers to look at a pull request soon. */
  const UrgentLabel := "urgent"

  /** Any login containing this text is the automation account. */
  const MachineLogin := "openssl-machine"
}

=== FILE: ladder.dfy ===
/**
 The per-pull-request decision: after the timeline has been folded, an
 ordered series of checks yields an outcome and the writes to send.
 */
module Ladder {

  import opened Labels
  import opened Timeline
  import opened Writes

  /** Waiting period before an approval may be promoted, in seconds. */
  const Day := 86400

  const CiSuccess := "success"

  const UrgentNotice := "@openssl/committers note this pull request has had the urgent label applied"

  const UpdatedNotice :=
    "24 hours has passed since 'approval: done' was set, but as this PR has been "
    + " updated in that time the label 'approval: ready to merge' is not being "
    + "automatically set.  Please review the updates and set the label manually."

  const CiFailureNotice :=
    "24 hours has passed since 'approval: done' was set, but this PR has failing CI tests. "
    + "Once the tests pass it will get moved to 'approval: ready to merge' automatically,"
    + "alternatively please review and set the label manually."

  /** The answer to the commit-status request for one SHA. */
  datatype CiLookup = LookupFailed | Reported(state: string)

  /** The line reported for one pull request. */
  datatype Outcome =
    | AlreadyReady              // already has the ready-to-merge label
    | NotApproved               // never got (or lost) the done label
    | TooSoon(elapsed: int)     // less than a day since approval; seconds elapsed
    | UpdatedAlreadyNoted       // updated after approval, already commented on
    | UpdatedCommented          // updated after approval, comment made (in commit mode)
    | CiUnknown                 // the CI status could not be fetched
    | CiFailureAlreadyNoted     // CI not passing, already commented on
    | CiFailureCommented        // CI not passing, comment made (in commit mode)
    | Candidate(elapsed: int)   // every check passed; seconds elapsed
    | NoActivity                // the latest of an empty activity list was asked for

  datatype Decision = Decision(outcome: Outcome, writes: seq<Write>)

  /** The automation account has commented after time `t`. */
  predicate NotedSince(st: State, t: Timestamp) {
    |st.machine| > 0 && Latest(st.machine) > t
  }

  /** The urgent label is active and nobody has acted since it was applied. */
  predicate UrgentNoticeDue(st: State) {
    UrgentLabel in st.labels && |st.human| > 0 && Latest(st.human) <= st.labels[UrgentLabel]
  }

  /**
   The decision for a pull request in state `st` at time `now`, where `ci`
   answers the commit-status request for a SHA and `commit` enables writes.
   */
  function Decide(st: State, now: Timestamp, ci: string -> CiLookup, commit: bool): (d: Decision)
    ensures !commit ==> d.writes == []
    ensures d.outcome.AlreadyReady? <==> ReadyLabel in st.labels
    ensures d.outcome.NotApproved? <==> ReadyLabel !in st.labels && DoneLabel !in st.labels
    ensures d.writes != [] ==> ReadyLabel !in st.labels && DoneLabel in st.labels
  {
    if ReadyLabel in st.labels then Decision(AlreadyReady, [])
    else if DoneLabel !in st.labels then Decision(NotApproved, [])
    else if UrgentLabel in st.labels && |st.human| == 0 then Decision(NoActivity, [])
    else
      var notice := if commit && UrgentNoticeDue(st) then [AddComment(UrgentNotice)] else [];
      var approved := st.labels[DoneLabel];
      var elapsed := now - approved;
      if elapsed < Day then Decision(TooSoon(elapsed), notice)
      else if |st.human| == 0 then Decision(NoActivity, notice)
      else if Latest(st.human) > approved then
        if NotedSince(st, approved) then Decision(UpdatedAlreadyNoted, notice)
        else Decision(UpdatedCommented, notice + if commit then [AddComment(UpdatedNotice)] else [])
      else match ci(st.sha)
        case LookupFailed => Decision(CiUnknown, notice)
        case Reported(state) =>
          if state != CiSuccess then
            if NotedSince(st, approved) then Decision(CiFailureAlreadyNoted, notice)
            else Decision(CiFailureCommented, notice + if commit then [AddComment(CiFailureNotice)] else [])
          else Decision(Candidate(elapsed), notice + if commit then MoveWrites else [])
  }

  /** The whole check of one pull request from its timeline. */
  function CheckPr(events: seq<Event>, now: Timestamp, ci: string -> CiLookup, commit: bool): (d: Decision)
    ensures !commit ==> d.writes == []
    ensures d.outcome.AlreadyReady? <==> LastAppliedIn(events, ReadyLabel)
    ensures d.writes != [] ==> LastAppliedIn(events, DoneLabel) && !LastAppliedIn(events, ReadyLabel)
  {
    LabelFold(events, ReadyLabel);
    LabelFold(events, DoneLabel);
    Decide(Fold(events), now, ci, commit)
  }
}

=== FILE: ladder_facts.dfy ===
/** What the decision ladder promises, stated against the folded state. */
module LadderFacts {

  import opened Labels
  import opened Timeline
  import opened Writes
  import opened Ladder

  /** The urgent notice, when one is due; it always comes first. */
  function Notice(st: State, commit: bool): seq<Write> {
    if commit && Gated(st) && UrgentNoticeDue(st) then [AddComment(UrgentNotice)] else []
  }

  /** The pull request is approved, not yet promoted, and not stopped by a missing activity list. */
  predicate Gated(st: State) {
    && ReadyLabel !in st.labels
    && DoneLabel in st.labels
    && (UrgentLabel in st.labels ==> |st.human| > 0)
  }

  /** A day has passed since approval and there is activity to compare against. */
  predicate PastDay(st: State, now: Timestamp) {
    Gated(st) && now - st.labels[DoneLabel] >= Day && |st.human| > 0
  }

  lemma NoticesDistinct()
    ensures UrgentNotice != UpdatedNotice && UrgentNotice != CiFailureNotice && UrgentNotice != ReadyNotice
    ensures ReadyNotice != UpdatedNotice && ReadyNotice != CiFailureNotice && UpdatedNotice != CiFailureNotice
  {
    assert |UrgentNotice| == 75 && |UpdatedNotice| == 221;
    assert |CiFailureNotice| == 223 && |ReadyNotice| == 35;
  }

  /** The ready label wins over everything; without the done label nothing else is looked at. */
  lemma Precedence(st: State, now: Timestamp, ci: string -> CiLookup, commit: bool)
    ensures ReadyLabel in st.labels ==> Decide(st, now, ci, commit) == Decision(AlreadyReady, [])
    ensures ReadyLabel !in st.labels && DoneLabel !in st.labels ==>
      Decide(st, now, ci, commit) == Decision(NotApproved, [])
  {
  }

  /** A dry run reports the same outcome as a committing run and sends nothing. */
  lemma DryRunSameOutcome(st: State, now: Timestamp, ci: string -> CiLookup)
    ensures Decide(st, now, ci, false).writes == []
    ensures Decide(st, now, ci, false).outcome == Decide(st, now, ci, true).outcome
  {
  }

  /**
   The urgent notice is sent exactly in commit mode, for an approved pull
   request, when the urgent label is active and no human activity is later
   than it; it is then the first write.
   */
  lemma UrgentNoticeExactly(st: State, now: Timestamp, ci: string -> CiLookup, commit: bool)
    ensures var d := Decide(st, now, ci, commit);
      AddComment(UrgentNotice) in d.writes <==> commit && Gated(st) && UrgentNoticeDue(st)
    ensures var d := Decide(st, now, ci, commit);
      AddComment(UrgentNotice) in d.writes ==> d.writes[0] == AddComment(UrgentNotice)
  {
    NoticesDistinct();
  }

  /**
   The urgent label never decides the outcome: with at least one activity
   time, removing it changes only the leading notice.
   */
  lemma UrgentNeverDecides(st: State, now: Timestamp, ci: string -> CiLookup, commit: bool)
    requires |st.human| > 0
    ensures var d := Decide(st, now, ci, commit);
      var plain := Decide(st.(labels := st.labels - {UrgentLabel}), now, ci, commit);
      d.outcome == plain.outcome && d.writes == Notice(st, commit) + plain.writes
  {
    var plain := st.(labels := st.labels - {UrgentLabel});
    assert !UrgentNoticeDue(plain);
    if ReadyLabel !in st.labels && DoneLabel in st.labels {
      assert plain.labels[DoneLabel] == st.labels[DoneLabel];
      var d := Decide(st, now, ci, commit);
      var p := Decide(plain, now, ci, commit);
      assert Notice(plain, commit) == [];
      assert d.writes == Notice(st, commit) + p.writes;
    }
  }

  /**
   Less than a day after approval the outcome abstains with the exact elapsed
   time; the only write is the urgent notice.
   */
  lemma TooSoonExactly(st: State, now: Timestamp, ci: string -> CiLookup, commit: bool)
    ensures Decide(st, now, ci, commit).outcome.TooSoon? <==>
      Gated(st) && now - st.labels[DoneLabel] < Day
    ensures Decide(st, now, ci, commit).outcome.TooSoon? ==>
      Decide(st, now, ci, commit) == Decision(TooSoon(now - st.labels[DoneLabel]), Notice(st, commit))
  {
  }

  /**
   After a day, human activity since approval is looked at before CI: the
   CI answer does not matter, and the "updated" comment is sent in commit
   mode unless the automation account has commented since approval.
   */
  lemma UpdatesCheckedBeforeCi(st: State, now: Timestamp, ci: string -> CiLookup,
                               ci': string -> CiLookup, commit: bool)
    requires PastDay(st, now) && Latest(st.human) > st.labels[DoneLabel]
    ensures Decide(st, now, ci, commit) == Decide(st, now, ci', commit)
    ensures var noted := NotedSince(st, st.labels[DoneLabel]);
      Decide(st, now, ci, commit) ==
        if noted then Decision(UpdatedAlreadyNoted, Notice(st, commit))
        else Decision(UpdatedCommented, Notice(st, commit) + if commit then [AddComment(UpdatedNotice)] else [])
  {
  }

  /**
   With no human activity since approval the CI answer for the last commit
   decides: a failed lookup abstains silently, a state other than success
   abstains with a de-duplicated comment, success makes a candidate.
   */
  lemma CiDecides(st: State, now: Timestamp, ci: string -> CiLookup, commit: bool)
    requires PastDay(st, now) && Latest(st.human) <= st.labels[DoneLabel]
    ensures var d := Decide(st, now, ci, commit);
      d.outcome == CiUnknown <==> ci(st.sha) == LookupFailed
    ensures var d := Decide(st, now, ci, commit);
      d.outcome.Candidate? <==> ci(st.sha) == Reported(CiSuccess)
    ensures var d := Decide(st, now, ci, commit);
      (d.outcome == CiFailureAlreadyNoted || d.outcome == CiFailureCommented) <==>
      ci(st.sha).Reported? && ci(st.sha).state != CiSuccess
    ensures var d := Decide(st, now, ci, commit);
      d.outcome == CiFailureCommented ==>
        !NotedSince(st, st.labels[DoneLabel]) &&
        d.writes == Notice(st, commit) + if commit then [AddComment(CiFailureNotice)] else []
    ensures var d := Decide(st, now, ci, commit);
      d.outcome == CiFailureAlreadyNoted ==>
        NotedSince(st, st.labels[DoneLabel]) && d.writes == Notice(st, commit)
    ensures var d := Decide(st, now, ci, commit);
      d.outcome == CiUnknown ==> d.writes == Notice(st, commit)
  {
  }

  /**
   The empty activity list stops evaluation where its latest time is first
   needed: at the urgent check, or once a day has passed; nothing is written.
   */
  lemma NoActivityExactly(st: State, now: Timestamp, ci: string -> CiLookup, commit: bool)
    ensures Decide(st, now, ci, commit).outcome == NoActivity <==>
      && ReadyLabel !in st.labels && DoneLabel in st.labels && |st.human| == 0
      && (UrgentLabel in st.labels || now - st.labels[DoneLabel] >= Day)
    ensures Decide(st, now, ci, commit).outcome == NoActivity ==> Decide(st, now, ci, commit).writes == []
  {
  }

  /** The de-duplication test: some automation comment is later than `t`. */
  lemma NotedSinceMeans(st: State, t: Timestamp)
    ensures NotedSince(st, t) <==> exists m :: m in st.machine && m > t
  {
    if |st.machine| > 0 && Latest(st.machine) <= t {
      assert forall m :: m in st.machine ==> m <= Latest(st.machine);
    }
  }

  /**
   Once the automation account has commented after the approval time,
   neither the "updated" nor the CI-failure comment is sent again.
   */
  lemma NotedSilencesStatusComments(st: State, now: Timestamp, ci: string -> CiLookup, commit: bool)
    requires DoneLabel in st.labels && NotedSince(st, st.labels[DoneLabel])
    ensures var d := Decide(st, now, ci, commit);
      AddComment(UpdatedNotice) !in d.writes && AddComment(CiFailureNotice) !in d.writes
  {
    NoticesDistinct();
  }

  /**
   A pull request is a candidate exactly when every check passes; commit
   mode then sends the move after any urgent notice, dry-run mode nothing.
   */
  lemma CandidateExactly(st: State, now: Timestamp, ci: string -> CiLookup, commit: bool)
    ensures Decide(st, now, ci, commit).outcome.Candidate? <==>
      PastDay(st, now) && Latest(st.human) <= st.labels[DoneLabel] && ci(st.sha) == Reported(CiSuccess)
    ensures Decide(st, now, ci, commit).outcome.Candidate? ==>
      Decide(st, now, ci, commit) ==
        Decision(Candidate(now - st.labels[DoneLabel]), Notice(st, commit) + if commit then MoveWrites else [])
  {
  }

  /** Labels are written only when a committing run promotes the pull request. */
  lemma LabelsChangeOnlyOnPromotion(st: State, now: Timestamp, ci: string -> CiLookup, commit: bool)
    ensures var d := Decide(st, now, ci, commit);
      RemoveLabel(DoneLabel) in d.writes <==> commit && d.outcome.Candidate?
    ensures var d := Decide(st, now, ci, commit);
      forall w :: w in d.writes && !w.AddComment? ==> commit && d.outcome.Candidate?
  {
  }
}

=== FILE: pulls.dfy ===
/**
 Listing the pull requests to check: the open pull requests of every page,
 joined in page order, then filtered to those carrying the done label.
 */
module PullRequests {

  import opened Wrappers
  import opened Labels

  datatype Label = Label(name: string)

  /** A listed pull request; `labels` is None when the payload has no labels key. */
  datatype PullRequest = PullRequest(number: int, labels: Option<seq<Label>>)

  /** The pull request carries a label named exactly like the done label. */
  predicate HasDone(pr: PullRequest) {
    pr.labels.Some? && exists k :: 0 <= k < |pr.labels.value| && pr.labels.value[k].name == DoneLabel
  }

  /** The label names, in order. */
  function Names(labels: seq<Label>): seq<string> {
    seq(|labels|, k requires 0 <= k < |labels| => labels[k].name)
  }

  /** `number` once for each label in `labels` named like the done label. */
  function Hits(number: int, labels: seq<Label>): (r: seq<int>)
    ensures forall k :: 0 <= k < |r| ==> r[k] == number
    ensures |r| > 0 <==> exists k :: 0 <= k < |labels| && labels[k].name == DoneLabel
    ensures |r| == multiset(Names(labels))[DoneLabel]
    decreases |labels|
  {
    if |labels| == 0 then []
    else
      var rest := Hits(number, labels[1..]);
      assert forall k :: 0 <= k < |labels| - 1 ==> labels[1..][k] == labels[k + 1];
      assert Names(labels) == [labels[0].name] + Names(labels[1..]);
      (if labels[0].name == DoneLabel then [number] else []) + rest
  }

  /** The numbers one pull request contributes. */
  function Matches(pr: PullRequest): seq<int> {
    match pr.labels
    case None => []
    case Some(labels) => Hits(pr.number, labels)
  }

  /** The done-labelled pull request numbers, in input order. */
  function Filter(prs: seq<PullRequest>): (r: seq<int>)
    ensures forall k :: 0 <= k < |r| ==>
      exists i :: 0 <= i < |prs| && prs[i].number == r[k] && HasDone(prs[i])
    decreases |prs|
  {
    if |prs| == 0 then []
    else
      var m := Matches(prs[0]);
      var rest := Filter(prs[1..]);
      assert forall i :: 1 <= i < |prs| ==> prs[1..][i - 1] == prs[i];
      assert forall k :: 0 <= k < |m| ==> m[k] == prs[0].number && HasDone(prs[0]) by {
        if prs[0].labels.Some? {
          assert m == Hits(prs[0].number, prs[0].labels.value);
        }
      }
      m + rest
  }

  function Concat<T>(pages: seq<seq<T>>): seq<T>
    decreases |pages|
  {
    if |pages| == 0 then [] else pages[0] + Concat(pages[1..])
  }

  /** An element of the joined pages is an element of one of the pages. */
  lemma {:induction false} ConcatMembership<T>(pages: seq<seq<T>>, x: T)
    ensures x in Concat(pages) <==> exists p :: 0 <= p < |pages| && x in pages[p]
    decreases |pages|
  {
    if |pages| == 0 {
      return;
    }
    ConcatMembership(pages[1..], x);
    assert forall p :: 1 <= p < |pages| ==> pages[1..][p - 1] == pages[p];
  }

  /**
   All pages are joined before the filter runs: a number is listed exactly
   when a pull request with it on some page carries the done label.
   */
  function GetPullRequests(pages: seq<seq<PullRequest>>): (r: seq<int>)
    ensures forall n :: n in r <==>
      exists p, pr :: 0 <= p < |pages| && pr in pages[p] && pr.number == n && HasDone(pr)
  {
    var all := Concat(pages);
    assert forall n :: n in Filter(all) <==>
      exists p, pr :: 0 <= p < |pages| && pr in pages[p] && pr.number == n && HasDone(pr) by {
      forall n
        ensures n in Filter(all) <==>
          exists p, pr :: 0 <= p < |pages| && pr in pages[p] && pr.number == n && HasDone(pr)
      {
        FilterMembership(all, n);
        if n in Filter(all) {
          var i :| 0 <= i < |all| && all[i].number == n && HasDone(all[i]);
          ConcatMembership(pages, all[i]);
        }
        if exists p, pr :: 0 <= p < |pages| && pr in pages[p] && pr.number == n && HasDone(pr) {
          var p, pr :| 0 <= p < |pages| && pr in pages[p] && pr.number == n && HasDone(pr);
          ConcatMembership(pages, pr);
          var i :| 0 <= i < |all| && all[i] == pr;
        }
      }
    }
    Filter(all)
  }

  /** A number is listed exactly when some input pull request with it carries the done label. */
  lemma {:induction false} FilterMembership(prs: seq<PullRequest>, n: int)
    ensures n in Filter(prs) <==> exists i :: 0 <= i < |prs| && prs[i].number == n && HasDone(prs[i])
    decreases |prs|
  {
    if |prs| == 0 {
      return;
    }
    FilterMembership(prs[1..], n);
    var m := Matches(prs[0]);
    assert n in m <==> prs[0].number == n && HasDone(prs[0]) by {
      if prs[0].labels.Some? && |m| > 0 {
        assert m[0] == prs[0].number;
      }
    }
    assert forall i :: 1 <= i < |prs| ==> prs[1..][i - 1] == prs[i];
  }

  /** Filtering a concatenation is concatenating the filtered parts. */
  lemma {:induction false} FilterAppend(a: seq<PullRequest>, b: seq<PullRequest>)
    ensures Filter(a + b) == Filter(a) + Filter(b)
    decreases |a|
  {
    if |a| == 0 {
      assert a + b == b;
      return;
    }
    assert (a + b)[1..] == a[1..] + b;
    FilterAppend(a[1..], b);
  }

  /** Joining pages and then filtering equals filtering each page and joining the results. */
  lemma {:induction false} PagesDistribute(pages: seq<seq<PullRequest>>)
    ensures GetPullRequests(pages) == Concat(seq(|pages|, i requires 0 <= i < |pages| => Filter(pages[i])))
    decreases |pages|
  {
    var per := seq(|pages|, i requires 0 <= i < |pages| => Filter(pages[i]));
    if |pages| == 0 {
      return;
    }
    PagesDistribute(pages[1..]);
    FilterAppend(pages[0], Concat(pages[1..]));
    assert per[1..] == seq(|pages[1..]|, i requires 0 <= i < |pages[1..]| => Filter(pages[1..][i]));
  }
}

=== FILE: rerun.dfy ===
/**
 What a second run sees after the first run's comment has landed on the
 timeline as a comment by the automation account.
 */
module Rerun {

  import opened Labels
  import opened Timeline
  import opened Writes
  import opened Ladder
  import opened LadderFacts

  /** An automation comment only extends the machine list. */
  lemma MachineCommentAppended(events: seq<Event>, login: string, t: Timestamp)
    requires IsMachine(login)
    ensures Fold(events + [Commented(login, t)]) ==
      Fold(events).(machine := Fold(events).machine + [t])
  {
    FoldSnoc(events, Commented(login, t));
  }

  /** The first of the two runs below, stated on the folded state. */
  lemma UpdateNotedOnState(st: State, now: Timestamp, ci: string -> CiLookup,
                           t: Timestamp, later: Timestamp, ci': string -> CiLookup)
    requires Decide(st, now, ci, true).outcome == UpdatedCommented
    requires now <= t && now <= later
    ensures Decide(st.(machine := st.machine + [t]), later, ci', true) ==
      Decision(UpdatedAlreadyNoted, Notice(st, true))
  {
    LatestSnoc(st.machine, t);
    var st' := st.(machine := st.machine + [t]);
    assert Gated(st) && PastDay(st, now);
    assert NotedSince(st', st.labels[DoneLabel]);
    UpdatesCheckedBeforeCi(st', later, ci', ci', true);
    assert Notice(st', true) == Notice(st, true);
  }

  /** The second of the two runs below, stated on the folded state. */
  lemma CiNotedOnState(st: State, now: Timestamp, ci: string -> CiLookup,
                       t: Timestamp, later: Timestamp, ci': string -> CiLookup)
    requires Decide(st, now, ci, true).outcome == CiFailureCommented
    requires now <= t
    ensures var d := Decide(st.(machine := st.machine + [t]), later, ci', true);
      AddComment(CiFailureNotice) !in d.writes && AddComment(UpdatedNotice) !in d.writes
    ensures now <= later && ci'(st.sha) == ci(st.sha) ==>
      Decide(st.(machine := st.machine + [t]), later, ci', true) ==
        Decision(CiFailureAlreadyNoted, Notice(st, true))
  {
    LatestSnoc(st.machine, t);
    var st' := st.(machine := st.machine + [t]);
    assert Gated(st) && PastDay(st, now);
    assert NotedSince(st', st.labels[DoneLabel]);
    NotedSilencesStatusComments(st', later, ci', true);
    assert Notice(st', true) == Notice(st, true);
  }

  /**
   After a committing run made the "updated since approval" comment, a later
   run that sees that comment abstains without repeating it.
   */
  lemma NoDuplicateUpdateComment(events: seq<Event>, now: Timestamp, ci: string -> CiLookup,
                                 login: string, t: Timestamp, later: Timestamp, ci': string -> CiLookup)
    requires CheckPr(events, now, ci, true).outcome == UpdatedCommented
    requires IsMachine(login) && now <= t && now <= later
    ensures var d := CheckPr(events + [Commented(login, t)], later, ci', true);
      d.outcome == UpdatedAlreadyNoted && d.writes == Notice(Fold(events), true)
  {
    MachineCommentAppended(events, login, t);
    UpdateNotedOnState(Fold(events), now, ci, t, later, ci');
  }

  /**
   After a committing run made the CI-failure comment, a later run that sees
   that comment never repeats it nor makes the "updated" comment, and while
   CI gives the same answer it abstains with no write but the urgent notice.
   */
  lemma NoDuplicateCiComment(events: seq<Event>, now: Timestamp, ci: string -> CiLookup,
                             login: string, t: Timestamp, later: Timestamp, ci': string -> CiLookup)
    requires CheckPr(events, now, ci, true).outcome == CiFailureCommented
    requires IsMachine(login) && now <= t
    ensures var d := CheckPr(events + [Commented(login, t)], later, ci', true);
      AddComment(CiFailureNotice) !in d.writes && AddComment(UpdatedNotice) !in d.writes
    ensures now <= later && ci'(Fold(events).sha) == ci(Fold(events).sha) ==>
      CheckPr(events + [Commented(login, t)], later, ci', true) ==
        Decision(CiFailureAlreadyNoted, Notice(Fold(events), true))
  {
    MachineCommentAppended(events, login, t);
    CiNotedOnState(Fold(events), now, ci, t, later, ci');
  }

  /**
   The urgent notice is not de-duplicated: the automation comment it leaves
   does not stop the next run from sending it again.
   */
  lemma UrgentNoticeRepeats(events: seq<Event>, now: Timestamp, ci: string -> CiLookup,
                            login: string, t: Timestamp, later: Timestamp, ci': string -> CiLookup)
    requires AddComment(UrgentNotice) in CheckPr(events, now, ci, true).writes
    requires IsMachine(login)
    ensures AddComment(UrgentNotice) in CheckPr(events + [Commented(login, t)], later, ci', true).writes
  {
    var st := Fold(events);
    MachineCommentAppended(events, login, t);
    var st' := st.(machine := st.machine + [t]);
    UrgentNoticeExactly(st, now, ci, true);
    UrgentNoticeExactly(st', later, ci', true);
  }

  /**
   An urgent notice posted after the approval time counts as the automation
   account having commented, so neither status comment is ever sent after it.
   */
  lemma UrgentNoticeSilencesStatusComments(events: seq<Event>, now: Timestamp, ci: string -> CiLookup,
                                           login: string, t: Timestamp, later: Timestamp,
                                           ci': string -> CiLookup)
    requires AddComment(UrgentNotice) in CheckPr(events, now, ci, true).writes
    requires IsMachine(login)
    requires DoneLabel in Fold(events).labels && Fold(events).labels[DoneLabel] < t
    ensures var d := CheckPr(events + [Commented(login, t)], later, ci', true);
      AddComment(UpdatedNotice) !in d.writes && AddComment(CiFailureNotice) !in d.writes
  {
    var st := Fold(events);
    MachineCommentAppended(events, login, t);
    LatestSnoc(st.machine, t);
    var st' := st.(machine := st.machine + [t]);
    NotedSilencesStatusComments(st', later, ci', true);
  }
}

=== FILE: text.dfy ===
/** Substring search, the model of Python's `sub in s` on strings. */
module Text {

  /** `sub` occurs in `s` starting at index `i`. */
  ghost predicate OccursAt(s: string, sub: string, i: int) {
    0 <= i && i + |sub| <= |s| && s[i..i + |sub|] == sub
  }

  /** True exactly when `sub` occurs somewhere in `s`. */
  function Contains(s: string, sub: string): (b: bool)
    ensures b <==> exists i :: OccursAt(s, sub, i)
    decreases |s|
  {
    if |sub| > |s| then
      assert forall i :: !OccursAt(s, sub, i);
      false
    else if s[..|sub|] == sub then
      assert OccursAt(s, sub, 0);
      true
    else
      var rest := Contains(s[1..], sub);
      assert forall i :: OccursAt(s[1..], sub, i) <==> OccursAt(s, sub, i + 1) by {
        forall i
          ensures OccursAt(s[1..], sub, i) <==> OccursAt(s, sub, i + 1)
        {
          if 0 <= i && i + |sub| <= |s| - 1 {
            assert s[1..][i..i + |sub|] == s[i + 1..i + 1 + |sub|];
          }
        }
      }
      assert !OccursAt(s, sub, 0);
      assert forall i :: OccursAt(s, sub, i) ==> OccursAt(s[1..], sub, i - 1);
      rest
  }
}

=== FILE: timeline.dfy ===
/**
 Timeline events of one pull request and the state the workflow folds them
 into: the active labels with the time each was last applied, the times of
 human activity, the times of comments by the automation account, and the
 SHA of the last commit.
 */
module Timeline {

  import Text
  import opened Labels

  /** Whole seconds since the Unix epoch, UTC. */
  type Timestamp = int

  /** One entry of the issue timeline, with only the fields the workflow reads. */
  datatype Event =
    | Commented(login: string, updatedAt: Timestamp)
    | Committed(sha: string, authorDate: Timestamp)
    | Labeled(name: string, createdAt: Timestamp)
    | Unlabeled(name: string, createdAt: Timestamp)
    | Reviewed(state: string, submittedAt: Timestamp)
    | Other(kind: string)

  /** What one pass over the timeline leaves behind. */
  datatype State = State(
    labels: map<string, Timestamp>,
    human: seq<Timestamp>,
    machine: seq<Timestamp>,
    sha: string)

  const Initial := State(map[], [], [], "")

  predicate IsMachine(login: string) {
    Text.Contains(login, MachineLogin)
  }

  /** `e` is a comment or a commit by a person, at time `t`. */
  predicate HumanActivity(e: Event, t: Timestamp) {
    || (e.Commented? && !IsMachine(e.login) && e.updatedAt == t)
    || (e.Committed? && e.authorDate == t)
  }

  /** `e` is a comment by the automation account, at time `t`. */
  predicate MachineComment(e: Event, t: Timestamp) {
    e.Commented? && IsMachine(e.login) && e.updatedAt == t
  }

  /** `e` applies or removes the label `name`. */
  predicate TouchesLabel(e: Event, name: string) {
    (e.Labeled? || e.Unlabeled?) && e.name == name
  }

  /** Reviews and unknown events leave the state alone. */
  predicate Inert(e: Event) {
    e.Reviewed? || e.Other?
  }

  /** The effect of one event. */
  function Step(st: State, e: Event): (r: State)
    ensures forall t :: HumanActivity(e, t) ==> r.human == st.human + [t]
    ensures (forall t :: !HumanActivity(e, t)) ==> r.human == st.human
    ensures forall t :: MachineComment(e, t) ==> r.machine == st.machine + [t]
    ensures (forall t :: !MachineComment(e, t)) ==> r.machine == st.machine
    ensures r.sha == (if e.Committed? then e.sha else st.sha)
    ensures forall name :: !TouchesLabel(e, name) ==>
      (name in r.labels <==> name in st.labels) &&
      (name in st.labels ==> r.labels[name] == st.labels[name])
    ensures Inert(e) ==> r == st
  {
    match e
    case Commented(login, at) =>
      if IsMachine(login) then st.(machine := st.machine + [at])
      else st.(human := st.human + [at])
    case Committed(sha, date) =>
      st.(sha := sha, human := st.human + [date])
    case Labeled(name, at) =>
      st.(labels := st.labels[name := at])
    case Unlabeled(name, _) =>
      // a label that is not present is left alone, as when it was renamed
      st.(labels := st.labels - {name})
    case Reviewed(_, _) => st
    case Other(_) => st
  }

  /** The state after the whole timeline, taken in order. */
  function Fold(events: seq<Event>): (r: State)
    ensures |r.human| + |r.machine| <= |events|
    ensures r.labels.Keys <= set i | 0 <= i < |events| && events[i].Labeled? :: events[i].name
    decreases |events|
  {
    if |events| == 0 then Initial
    else
      var p := events[..|events| - 1];
      var e := events[|events| - 1];
      assert forall i :: 0 <= i < |p| ==> events[i] == p[i];
      Step(Fold(p), e)
  }

  lemma FoldSnoc(events: seq<Event>, e: Event)
    ensures Fold(events + [e]) == Step(Fold(events), e)
  {
    assert (events + [e])[..|events|] == events;
  }

  /** The latest of a non-empty list of times (Python's `max`). */
  function Latest(ts: seq<Timestamp>): (m: Timestamp)
    requires |ts| > 0
    ensures m in ts
    ensures forall t :: t in ts ==> t <= m
  {
    if |ts| == 1 then ts[0]
    else
      var rest := Latest(ts[1..]);
      assert forall t :: t in ts ==> t == ts[0] || t in ts[1..];
      if ts[0] > rest then ts[0] else rest
  }

  lemma LatestSnoc(ts: seq<Timestamp>, t: Timestamp)
    ensures Latest(ts + [t]) >= t
    ensures |ts| > 0 ==> Latest(ts + [t]) >= Latest(ts)
  {
    assert t in ts + [t];
    if |ts| > 0 {
      assert Latest(ts) in ts + [t];
    }
  }

  /** Event `i` is the last one that applies or removes `name`. */
  ghost predicate LastLabelEventAt(events: seq<Event>, name: string, i: int) {
    && 0 <= i < |events|
    && TouchesLabel(events[i], name)
    && forall j :: i < j < |events| ==> !TouchesLabel(events[j], name)
  }

  /** The last event on the timeline that touches `name` applied it. */
  ghost predicate LastAppliedIn(events: seq<Event>, name: string) {
    exists i :: LastLabelEventAt(events, name, i) && events[i].Labeled?
  }

  /**
   A label is active exactly when the last event that touches it applied it,
   and its time is the time of that event.
   */
  lemma {:induction false} LabelFold(events: seq<Event>, name: string)
    ensures name in Fold(events).labels <==>
      exists i :: LastLabelEventAt(events, name, i) && events[i].Labeled?
    ensures forall i :: LastLabelEventAt(events, name, i) && events[i].Labeled? ==>
      name in Fold(events).labels && Fold(events).labels[name] == events[i].createdAt
    decreases |events|
  {
    if |events| == 0 {
      return;
    }
    var n := |events| - 1;
    var p := events[..n];
    var e := events[n];
    assert events == p + [e];
    FoldSnoc(p, e);
    if TouchesLabel(e, name) {
      assert LastLabelEventAt(events, name, n);
      forall i | LastLabelEventAt(events, name, i)
        ensures i == n
      {
      }
    } else {
      LabelFold(p, name);
      forall i
        ensures LastLabelEventAt(events, name, i) <==> LastLabelEventAt(p, name, i)
      {
        if 0 <= i < n {
          assert events[i] == p[i];
          assert forall j :: i < j < n ==> events[j] == p[j];
        }
      }
      forall i | 0 <= i < n
        ensures events[i] == p[i]
      {
      }
    }
  }

  /**
   A label removed after the last time it was applied is not active, however
   often it was applied before.
   */
  lemma RemovedLabelInactive(events: seq<Event>, name: string, j: int)
    requires 0 <= j < |events|
    requires events[j].Unlabeled? && events[j].name == name
    requires forall k :: j < k < |events| ==> !(events[k].Labeled? && events[k].name == name)
    ensures name !in Fold(events).labels
  {
    LabelFold(events, name);
    forall i | LastLabelEventAt(events, name, i)
      ensures !events[i].Labeled?
    {
      if i < j {
        assert TouchesLabel(events[j], name);
      }
    }
  }

  /**
   The human and machine lists hold exactly the times of the human activity
   and the automation comments on the timeline.
   */
  lemma {:induction false} ActivityFold(events: seq<Event>)
    ensures forall t :: t in Fold(events).human <==>
      exists i :: 0 <= i < |events| && HumanActivity(events[i], t)
    ensures forall t :: t in Fold(events).machine <==>
      exists i :: 0 <= i < |events| && MachineComment(events[i], t)
    decreases |events|
  {
    if |events| == 0 {
      return;
    }
    var n := |events| - 1;
    var p := events[..n];
    var e := events[n];
    assert events == p + [e];
    FoldSnoc(p, e);
    ActivityFold(p);
    forall i | 0 <= i < n
      ensures events[i] == p[i]
    {
    }
  }

  /** Event `i` is the last commit on the timeline. */
  ghost predicate LastCommitAt(events: seq<Event>, i: int) {
    && 0 <= i < |events|
    && events[i].Committed?
    && forall j :: i < j < |events| ==> !events[j].Committed?
  }

  /** The SHA kept is that of the last commit, or empty when there is none. */
  lemma {:induction false} ShaFold(events: seq<Event>)
    ensures (forall i :: 0 <= i < |events| ==> !events[i].Committed?) ==> Fold(events).sha == ""
    ensures forall i :: LastCommitAt(events, i) ==> Fold(events).sha == events[i].sha
    decreases |events|
  {
    if |events| == 0 {
      return;
    }
    var n := |events| - 1;
    var p := events[..n];
    var e := events[n];
    assert events == p + [e];
    FoldSnoc(p, e);
    ShaFold(p);
    forall i | 0 <= i < n
      ensures events[i] == p[i]
    {
    }
    forall i | LastCommitAt(events, i) && !e.Committed?
      ensures LastCommitAt(p, i)
    {
    }
  }

  /**
   The timeline with reviews and unknown events dropped. The contract states
   which events are kept; that they keep their relative order is stated only
   by the body (and, for a timeline with nothing to drop, by the last ensures).
   */
  function Relevant(events: seq<Event>): (r: seq<Event>)
    ensures forall e :: e in r ==> e in events && !Inert(e)
    ensures forall e :: e in events && !Inert(e) ==> e in r
    ensures (forall k :: 0 <= k < |events| ==> !Inert(events[k])) ==> r == events
    decreases |events|
  {
    if |events| == 0 then []
    else
      var rest := Relevant(events[..|events| - 1]);
      var e := events[|events| - 1];
      assert forall x :: x in events[..|events| - 1] ==> x in events;
      assert forall x :: x in events ==> x in events[..|events| - 1] || x == e;
      if Inert(e) then rest else rest + [e]
  }

  /** Reviews and unknown events have no effect on the state. */
  lemma {:induction false} InertEventsIgnored(events: seq<Event>)
    ensures Fold(Relevant(events)) == Fold(events)
    decreases |events|
  {
    if |events| == 0 {
      return;
    }
    var n := |events| - 1;
    var p := events[..n];
    var e := events[n];
    assert events == p + [e];
    FoldSnoc(p, e);
    InertEventsIgnored(p);
    if !Inert(e) {
      FoldSnoc(Relevant(p), e);
    }
  }
}

=== FILE: wrappers.dfy ===
/** The optional value used for JSON keys that a payload may leave out. */
module Wrappers {

  datatype Option<+T> = None | Some(value: T)
}

=== FILE: writes.dfy ===
/**
 The three write requests the workflow can send, and the order in which a
 planned sequence of them is actually sent when some are rejected.
 */
module Writes {

  import opened Labels

  datatype Write =
    | AddComment(body: string)
    | RemoveLabel(name: string)
    | AddLabel(name: string)

  const ReadyNotice := "This pull request is ready to merge"

  /** Moving a pull request from approved to ready to merge, in the order sent. */
  const MoveWrites := [RemoveLabel(DoneLabel), AddLabel(ReadyLabel), AddComment(ReadyNotice)]

  /** The HTTP client's notion of a successful response: any status outside 400 to 599. */
  predicate Accepted(status: int) {
    !(400 <= status < 600)
  }

  /**
   A label write that is not accepted ends the sequence. A comment that is not
   created (status other than 201) is only reported, so it never does.
   */
  predicate Aborts(w: Write, status: int) {
    !w.AddComment? && !Accepted(status)
  }

  /**
   The writes actually sent when `writes` is carried out and the `k`-th
   request sent is answered with `status(k)`.
   */
  function Execute(writes: seq<Write>, status: nat -> int): (sent: seq<Write>)
    ensures |sent| <= |writes| && sent == writes[..|sent|]
    ensures |writes| > 0 ==> |sent| > 0
    ensures forall k :: 0 <= k < |sent| - 1 ==> !Aborts(writes[k], status(k))
    ensures |sent| < |writes| ==> Aborts(writes[|sent| - 1], status(|sent| - 1))
    decreases |writes|
  {
    if |writes| == 0 then []
    else if Aborts(writes[0], status(0)) then [writes[0]]
    else
      var rest := Execute(writes[1..], (k: nat) => status(k + 1));
      assert forall k :: 0 <= k < |rest| ==> writes[1..][k] == writes[k + 1];
      [writes[0]] + rest
  }

  /**
   Moving to ready to merge sends the label removal first and stops at the
   first rejected label write; the comment is sent only after both label
   writes were accepted.
   */
  lemma MoveStopsAtFirstFailure(status: nat -> int)
    ensures Execute(MoveWrites, status) ==
      if !Accepted(status(0)) then MoveWrites[..1]
      else if !Accepted(status(1)) then MoveWrites[..2]
      else MoveWrites
  {
  }

  /** A plan made only of comments is always sent in full. */
  lemma CommentsAlwaysSent(writes: seq<Write>, status: nat -> int)
    requires forall k :: 0 <= k < |writes| ==> writes[k].AddComment?
    ensures Execute(writes, status) == writes
  {
  }
}
